=== FILE: README.md ===
# 3D pitch trajectories: a Dafny model

The application draws one pitcher's average pitch trajectories in 3D. It takes a typed player name, such as
"gerrit cole", and turns it into the store key "Cole, Gerrit". It fetches that player's per-pitch records and
rejects an empty result with a message naming the player. It puts left- and right-handers on one convention:
a right-hander's release x is negated, and a left-hander's horizontal acceleration is negated. It then groups
the records by pitch type, in ascending order of the type code, and averages the nine kinematic columns
within each group.

Each group mean is turned into a flight path. The path is sampled at 1000 evenly spaced instants from 0 to
0.6 s under constant acceleration. It is then clipped to the samples whose y is still at least 1.714 ft, the
front plane of the strike zone.

The figure gets these traces, in order:
- three ground planes;
- a strike-zone wireframe of two closed outlines and four vertical edges;
- per pitch type, its clipped curve (carrying the legend label) and an unlabelled marker pair joining the
  release point to the last visible sample.

The figure is titled "First Last, 2024".

Modules:

- `PlayerNames` (names.dfy): models whitespace splitting as Python's `str.split()` does it, lower-casing,
  capitalizing, the store key and the title.
- `Errors` (errors.dfy): the three ways a request fails and the text shown for each.
- `Pitches` (pitches.dfy): the stored record and the handedness rewrite. The rewrite is a pure function
  (`Normalize`) plus the two in-place column passes (`AdjustForHandedness`).
- `Grouping` (grouping.dfy): models Python's string order on pitch-type codes, the sorted distinct keys,
  column sums and means, and the group-by.
- `Trajectory` (trajectory.dfy): `linspace`, the position polynomial, the mask and boolean selection, and the clip.
- `Scene` (scene.dfy): the trace datatypes and the `Figure` class that traces are appended to.
  - The imperative `Plot`, `Draw`, `AddStaticTraces` and `AddGroupTraces` build the figure by appending to it;
    the outline, edge and per-group steps are loops.
  - `Plot` is proved equal to the functional specification `SceneOf`, `Draw` to `Assemble`, `AddStaticTraces`
    to `StaticTraces`, and `AddGroupTraces` to `DynamicTraces`.
- `SceneFacts` (scene_facts.dfy): what a request yields, stated over `SceneOf`.
- `Wrappers` and `Seqs`: `Result`/`Option`, and generic sequence lemmas: map/filter over concatenations and
  permutations.

Behaviour this model follows as the program is written:

- A name with more than two words is accepted, and the words after the second are ignored. A name with fewer
  than two words fails with Python's index error (`InvalidName`) before anything is fetched.
- Sometimes a pitch type's mean trajectory has no sample in front of the zone. In that case the whole request
  fails (`NoVisibleSample`): taking its last point raises, and the exception aborts the figure. That pitch type
  is not simply skipped. The curve of that pitch type has already been appended when this happens.
- The zone's back plane is at the same y as its front plane (1.714 ft). Each outline therefore collapses to a
  segment along x at its height, and the back edges coincide with the front ones. The wireframe draws a single
  rectangle: the zone's front face in the plane y = 1.714.
- The legend-label list is a local value that the program never uses after the loop. The model returns it as
  `Scene.legend` so that its final value can be stated. It equals the group order.

## Model

| member | source | states |
|---|---|---|
| PlayerNames.Lower | 3d_traj_streamlit.py:23 | lower-casing keeps the length; SplitLower, StoreKeyIgnoresCase and CapitalizeLower state what it does to words and keys |
| PlayerNames.Split | 3d_traj_streamlit.py:23 | every piece is a non-empty word free of whitespace; SplitJoin and SplitLower state that it gives back the words of a name |
| PlayerNames.Capitalize | 3d_traj_streamlit.py:24 | no ensures of its own; CapitalizeLower states that capitalizing ignores the case of its input, and StoreKeyOfWords and TitleOfWords show its use on the first two words |
| PlayerNames.CapitalizeLower | 3d_traj_streamlit.py:23-24 | capitalizing a lower-cased word gives the same as capitalizing the word |
| PlayerNames.StoreKey | 3d_traj_streamlit.py:23-24 | a failed key is always the invalid-name error |
| PlayerNames.StoreKeyOfWords | 3d_traj_streamlit.py:23-24 | the key is the second word capitalized, ", ", the first word capitalized, taken from the words of the name as typed; fewer than two words is the invalid-name error; later words play no part |
| PlayerNames.KeyOfTypedName | 3d_traj_streamlit.py:23-24 | a name typed as single-space-separated words "first last rest…" has key "Last, First" and title "First Last, 2024", whatever the further words are |
| PlayerNames.StoreKeyIgnoresCase | 3d_traj_streamlit.py:23 | two names equal up to letter case give the same key and the same title |
| PlayerNames.SingleWordHasNoKey | 3d_traj_streamlit.py:24 | a one-word name has no key: it is the invalid-name error |
| PlayerNames.SplitLower | 3d_traj_streamlit.py:23 | splitting the lower-cased name gives the lower-cased words of the name: lower-casing moves no word boundary |
| PlayerNames.SplitJoin | 3d_traj_streamlit.py:23 | whitespace splitting gives back words joined by single spaces |
| PlayerNames.Title | 3d_traj_streamlit.py:181 | the title exists exactly when the store key does |
| PlayerNames.TitleOfWords | 3d_traj_streamlit.py:181 | the title is the first word capitalized, a space, the second word capitalized, then ", 2024", from the words of the name as typed; fewer than two words is the invalid-name error |
| Errors.Message | 3d_traj_streamlit.py:40-41 | the empty-data message is "No data found for player ", then the player name as typed, then "." |
| Errors.Display | 3d_traj_streamlit.py:214-215 | the text shown is "Error: " followed by the exception's message |
| Pitches.AdjustReleaseX | 3d_traj_streamlit.py:43-46 | no ensures of its own; Normalize states its effect (release x negated for "R" only) and AdjustmentsCommute relates it to AdjustAx |
| Pitches.AdjustAx | 3d_traj_streamlit.py:47-50 | no ensures of its own; Normalize states its effect (x acceleration negated for "L" only) and AdjustmentsCommute relates it to AdjustReleaseX |
| Pitches.Normalize | 3d_traj_streamlit.py:43-50 | hand "R" negates release x only, hand "L" negates the x acceleration only, any other hand leaves the row unchanged |
| Pitches.AdjustForHandedness | 3d_traj_streamlit.py:43-50 | the two column passes over the frame leave every row normalized, in the same order |
| Pitches.NormalizeInvolution | 3d_traj_streamlit.py:43-50 | adjusting a row twice gives back the row |
| Pitches.NormalizeAllInvolution | 3d_traj_streamlit.py:43-50 | adjusting a whole frame twice gives back the frame |
| Pitches.NormalizeKeepsLabels | 3d_traj_streamlit.py:43-50 | the adjustment keeps player, pitch type and hand |
| Pitches.AdjustmentsCommute | 3d_traj_streamlit.py:43-50 | the two column rewrites can be applied in either order |
| Grouping.Below | 3d_traj_streamlit.py:53 | no ensures of its own; BelowIrreflexive, BelowTransitive, BelowTotal and BelowAsymmetric state that it is a strict total order, the order pandas sorts the group keys in |
| Grouping.BelowIrreflexive | 3d_traj_streamlit.py:53 | no code sorts before itself |
| Grouping.BelowTransitive | 3d_traj_streamlit.py:53 | the code order is transitive |
| Grouping.BelowTotal | 3d_traj_streamlit.py:53 | of two different codes one sorts before the other |
| Grouping.BelowAsymmetric | 3d_traj_streamlit.py:53 | two codes never sort before each other |
| Grouping.SortedDistinct | 3d_traj_streamlit.py:53 | the group keys are strictly ascending, have exactly the elements of the input, and are no more numerous than it |
| Grouping.IncreasingUnique | 3d_traj_streamlit.py:53 | two ascending key lists with the same elements are equal, so the key order is determined |
| Grouping.Mean | 3d_traj_streamlit.py:53 | the mean times the row count is the column sum, on each of the nine columns |
| Grouping.SumPermutation | 3d_traj_streamlit.py:53 | column sums do not depend on the order of the rows |
| Grouping.GroupBy | 3d_traj_streamlit.py:53 | one group per sorted distinct pitch type, in order; each group has rows, and its mean times its row count is the sum of those rows |
| Grouping.GroupKeys | 3d_traj_streamlit.py:53 | the keys are strictly ascending and are exactly the pitch types occurring in the rows |
| Grouping.GroupByPermutation | 3d_traj_streamlit.py:53 | permuting the rows changes neither the groups, nor their order, nor their means |
| Trajectory.Linspace | 3d_traj_streamlit.py:140 | n values, the first lo, the last hi, consecutive values one (hi - lo)/(n - 1) apart |
| Trajectory.SampleTimes | 3d_traj_streamlit.py:138-140 | 1000 times, the first 0, the last 0.6, evenly spaced 0.6/999 apart |
| Trajectory.Sample | 3d_traj_streamlit.py:142-145 | three aligned 1000-sample axes whose sample 0 is exactly the release point |
| Trajectory.SampleAt | 3d_traj_streamlit.py:143-145 | sample i on each axis is release + v·t + ½·a·t² at t = i·0.6/999 |
| Trajectory.Position | 3d_traj_streamlit.py:143-145 | no ensures of its own; SampleAt states that each sample is release + v·t + ½·a·t² at its time |
| Trajectory.Mask | 3d_traj_streamlit.py:148 | one flag per sample; ClipKeeps and ClipEmptyIff state which samples it keeps |
| Trajectory.Clip | 3d_traj_streamlit.py:147-151 | the three clipped axes stay aligned; ClipKeeps, ClipInFront, ClipAllInFront and ClipEmptyIff state what it keeps |
| Trajectory.KeptIndices | 3d_traj_streamlit.py:148-151 | the indices kept are exactly those where the mask holds, strictly ascending |
| Trajectory.Select | 3d_traj_streamlit.py:149-151 | boolean selection gives the elements at the kept indices, in order |
| Trajectory.ClipKeeps | 3d_traj_streamlit.py:147-151 | the clip keeps exactly the samples with y ≥ 1.714, in time order, the same indices on x, y and z, at most as many as sampled |
| Trajectory.ClipInFront | 3d_traj_streamlit.py:148-151 | every kept sample has y ≥ 1.714 |
| Trajectory.ClipAllInFront | 3d_traj_streamlit.py:148-151 | a path entirely in front of the zone is kept whole |
| Trajectory.ClipEmptyIff | 3d_traj_streamlit.py:148-151 | something survives the clip exactly when some sample has y ≥ 1.714 |
| Trajectory.ReleaseStartsClip | 3d_traj_streamlit.py:143-151 | when the release point is in front of the zone, the clipped path is non-empty and starts at the release point |
| Scene.Figure.constructor | 3d_traj_streamlit.py:57 | a new figure has no traces |
| Scene.Figure.AddTrace | 3d_traj_streamlit.py:156-163 | adding a trace appends it and changes nothing else |
| Scene.Planes | 3d_traj_streamlit.py:67-98 | no ensures of its own; StaticShape states the three surfaces' heights, x extent and y tiling |
| Scene.Outline | 3d_traj_streamlit.py:101-109 | no ensures of its own; StaticShape states that each outline is a closed 5-point line at its height, and WireframeIsFrontFace gives its coordinates |
| Scene.Edge | 3d_traj_streamlit.py:110-121 | no ensures of its own; StaticShape states that each edge runs from 1.6 to 3.5 at its corner |
| Scene.StaticShape | 3d_traj_streamlit.py:60-121 | nine static traces: three surfaces at height 1.6 - 0.5 over x from -5 to 5, tiling y over [0,8], [8,45], [45,75]; two closed 5-point outlines at 3.5 and 1.6; four edges from 1.6 to 3.5 at the four corners; none in the legend |
| Scene.WireframeIsFrontFace | 3d_traj_streamlit.py:60-121 | with back = front = 1.714 each outline runs along x at y = 1.714 only, and the back corners and edges equal the front ones |
| Scene.AddStaticTraces | 3d_traj_streamlit.py:67-121 | appends exactly the static traces, in order |
| Scene.AddPlanes | 3d_traj_streamlit.py:67-98 | appends the ground, mound and batter's-box planes, in that order |
| Scene.AddOutlines | 3d_traj_streamlit.py:100-109 | the loop appends one outline per height, top then bottom |
| Scene.AddEdges | 3d_traj_streamlit.py:110-121 | the loop appends one edge per corner, in corner order |
| Scene.GroupPath | 3d_traj_streamlit.py:137-151 | a group's clipped path has aligned axes |
| Scene.Curve | 3d_traj_streamlit.py:155-163 | no ensures of its own; SceneFacts.CurveAndMarkers states its coordinates, its legend label and its palette colour |
| Scene.Endpoints | 3d_traj_streamlit.py:165-173 | no ensures of its own; SceneFacts.CurveAndMarkers states that it joins the mean release point to the curve's last point in the curve's colour |
| Scene.DynamicTraces | 3d_traj_streamlit.py:126-173 | the per-group traces exist exactly when every group's path is non-empty, and then there are two per group |
| Scene.DynamicTracesAt | 3d_traj_streamlit.py:155-173 | traces 2i and 2i+1 are the curve of group i and its marker pair, and group i's path is non-empty |
| Scene.DynamicFirstFailure | 3d_traj_streamlit.py:166-169 | a failure names the first group whose path is empty, and all earlier groups are visible |
| Scene.DynamicPrefixFails | 3d_traj_streamlit.py:166-169 | once a prefix of the groups fails, the whole request fails with the same error |
| Scene.FirstOccurrences | 3d_traj_streamlit.py:175-177 | the collected labels are duplicate-free and have exactly the elements of the input |
| Scene.FirstOccurrencesOfDistinct | 3d_traj_streamlit.py:175-177 | a duplicate-free label list is collected unchanged |
| Scene.GroupStep | 3d_traj_streamlit.py:155-177 | a visible group extends the traces by its curve and markers, and the legend by its label unless the label is already there |
| Scene.DynamicStop | 3d_traj_streamlit.py:166-169 | the first group with nothing visible makes the whole request fail, naming its pitch type |
| Scene.AddGroupTraces | 3d_traj_streamlit.py:123-177 | the loop appends exactly the per-group traces and returns the legend labels; or it fails with the error of the first invisible group, leaving the figure with the earlier groups' traces and that group's curve appended |
| Scene.Fetch | 3d_traj_streamlit.py:26-29 | no ensures of its own; FetchMatches states which rows the query returns, and StoreOrderIrrelevant that their order does not matter |
| Scene.FetchMatches | 3d_traj_streamlit.py:26-29 | the query returns rows of the store, each with the key as player name, and every such row of the store |
| Scene.SceneOf | 3d_traj_streamlit.py:35-205 | no ensures of its own; its meaning is stated by SceneFacts.InvalidNameIffNoKey, EmptyDatasetIffNoRows, SucceedsIffAllVisible, SceneLayout, GroupTracesAt and StoreOrderIrrelevant, and Plot is proved equal to it |
| Scene.Assemble | 3d_traj_streamlit.py:56-205 | no ensures of its own; its meaning is stated by SceneFacts.AssembleVisible, AssembleFailure and GroupTracesAt, and Draw is proved equal to it |
| Scene.Plot | 3d_traj_streamlit.py:35-205 | the imperative request yields exactly the scene or error that SceneOf specifies |
| Scene.Draw | 3d_traj_streamlit.py:56-205 | drawing the groups on a fresh figure yields exactly Assemble's scene or error |
| SceneFacts.AssembleFailure | 3d_traj_streamlit.py:166-169 | with a valid name, drawing the groups can fail only for want of a visible sample |
| SceneFacts.InvalidNameIffNoKey | 3d_traj_streamlit.py:23-24 | the request fails with the invalid-name error exactly when the name has no key |
| SceneFacts.EmptyDatasetIffNoRows | 3d_traj_streamlit.py:39-41 | the request fails with the empty-data error naming the player exactly when the key is valid and matches no row |
| SceneFacts.SucceedsIffAllVisible | 3d_traj_streamlit.py:126-173 | with a valid key and some rows, the request succeeds exactly when every group's clipped path is non-empty; otherwise it fails naming the first group, in group order, whose path is empty |
| SceneFacts.AssembleVisible | 3d_traj_streamlit.py:126-173 | with a valid name, drawing the groups succeeds exactly when every group's clipped path is non-empty; otherwise it fails naming the first group whose path is empty |
| SceneFacts.FirstInvisible | 3d_traj_streamlit.py:166-169 | a failure of the groups' traces names the first group whose clipped path is empty; every earlier group is visible |
| SceneFacts.GroupLabels | 3d_traj_streamlit.py:126-177 | the group labels are strictly ascending and collected unchanged into the legend, and are exactly the pitch types of the fetched rows |
| SceneFacts.AdjustedTypes | 3d_traj_streamlit.py:43-53 | the handedness adjustment leaves the group keys unchanged |
| SceneFacts.SceneIsAssembly | 3d_traj_streamlit.py:35-205 | a successful request had a valid key and is the figure drawn for the player's groups |
| SceneFacts.SceneLayout | 3d_traj_streamlit.py:57-181 | a successful scene has 9 + 2k traces, starting with the static ones; its legend is the k group labels, strictly ascending (so duplicate-free), exactly the pitch types thrown; its title is the name's title |
| SceneFacts.AssembleLayout | 3d_traj_streamlit.py:57-181 | drawing k groups yields the nine static traces then two per group, the labels collected by the guarded appends, and the name's title |
| SceneFacts.GroupTracesAt | 3d_traj_streamlit.py:155-173 | trace 9 + 2i is group i's curve along its non-empty clipped mean path, and trace 10 + 2i is its marker pair |
| SceneFacts.LaidOut | 3d_traj_streamlit.py:155-173 | after nine static traces, the curve and markers of group i sit at positions 9 + 2i and 10 + 2i |
| SceneFacts.CurveAndMarkers | 3d_traj_streamlit.py:155-173 | the curve has the path's coordinates, the pitch type as legend label and palette colour i; the markers share the colour and join the release point to the curve's last point |
| SceneFacts.StoreOrderIrrelevant | 3d_traj_streamlit.py:26-53 | the order of the records in the store does not change the result of a request |

## Left out

- Firestore (3d_traj_streamlit.py:16-19, 26-29): client set-up and the query are network I/O. The store is a
  sequence of records, and the query keeps the records whose player name equals the key, in store order.
- Streamlit (3d_traj_streamlit.py:208-215): the text input and the chart display are UI. The model keeps only
  two things: a failure aborts the request, and it is shown as "Error: " plus the message.
- The seaborn `husl` palette and its RGB strings (3d_traj_streamlit.py:54, 153) are a foreign library doing
  floating-point colour conversion. Group i's colour is modelled as palette index i.
- Plotly layout, camera, axes and legend placement (3d_traj_streamlit.py:179-203) are rendering constants.
  Only the title is modelled. Each surface's two-stop colour scale, which paints one colour, is reduced to that
  single colour; its opacity and showscale options are left out. The flag that hides a trace from the legend is modelled: the label of a curve, and none for every other trace.
- Numbers are exact reals, not IEEE-754 doubles. The sample times and positions carry none of the rounding of
  `linspace` and the float arithmetic. A sample whose y is within rounding of 1.714 may therefore be kept by
  one and not by the other.
- pandas details are not modelled:
  - missing values (NaN) in the numeric columns or in the pitch type;
  - non-numeric columns in the mean. The model follows pandas before 2.0, where the mean silently drops the
    string columns (the player name and the throwing hand). From pandas 2.0 on, the group mean raises a
    TypeError on every non-empty frame, so no request would succeed there;
  - records missing a field.
  Every record is complete and numeric.
- PlayerNames.Lower: maps only ASCII letters, while Python's `lower()` and `capitalize()` also change
  non-ASCII letters. Capitalizing uses upper case, not title case, for the first character.
- Errors.Message: states only the empty-data message. The other two texts are the messages of the index
  errors Python and NumPy raise, and no part of the program depends on them.
- The `name_list` computed again at the start of the plotting function (3d_traj_streamlit.py:36) is the
  same word list as the key's. The model computes it once per use, in `StoreKey` and `Title`.

=== FILE: errors.dfy ===
/**
 * The three ways a request for a player's scene can fail. Each one is an
 * exception in the original program; the user interface catches it and shows
 * its message after "Error: ".
 */
module Errors {

  datatype Error =
    /** The name has fewer than two words, so it has no second word to index (an IndexError). */
    | InvalidName
    /** The store returned no rows for the player (the ValueError raised on an empty frame). */
    | EmptyDataset(player: string)
    /** No sample of a pitch type's trajectory survives the clip, so it has no last point (an IndexError). */
    | NoVisibleSample(pitchType: string)

  /** The text of the raised exception. */
  function Message(e: Error): (m: string)
    ensures e.EmptyDataset? ==>
      |m| == |"No data found for player "| + |e.player| + 1 &&
      m[..|"No data found for player "|] == "No data found for player " &&
      m[|"No data found for player "|..|"No data found for player "| + |e.player|] == e.player &&
      m[|m| - 1] == '.'
  {
    match e
    case InvalidName => "list index out of range"
    case EmptyDataset(player) => "No data found for player " + player + "."
    case NoVisibleSample(_) => "index -1 is out of bounds for axis 0 with size 0"
  }

  /** What the user interface displays when a request fails. */
  function Display(e: Error): (m: string)
    ensures |m| > |"Error: "| && m[..|"Error: "|] == "Error: "
    ensures m[|"Error: "|..] == Message(e)
  {
    "Error: " + Message(e)
  }
}

=== FILE: grouping.dfy ===
/**
 * Grouping the rows by pitch type and averaging: one group per distinct pitch type,
 * visited in ascending order of the type code, each holding the arithmetic
 * mean of the nine kinematic columns over that type's rows.
 */
module Grouping {
  import opened Pitches
  import Seqs

  // ---------------------------------------------------------------------
  // The order of pitch-type codes: Python's `<` on strings

  /** `a` sorts strictly before `b`: compared character by character, a proper prefix first. */
  predicate Below(a: string, b: string) {
    if a == [] then b != []
    else if b == [] then false
    else a[0] < b[0] || (a[0] == b[0] && Below(a[1..], b[1..]))
  }

  lemma {:induction false} BelowIrreflexive(a: string)
    ensures !Below(a, a)
  {
    if a != [] {
      BelowIrreflexive(a[1..]);
    }
  }

  lemma {:induction false} BelowTransitive(a: string, b: string, c: string)
    requires Below(a, b) && Below(b, c)
    ensures Below(a, c)
  {
    if a != [] && a[0] == b[0] && b[0] == c[0] {
      BelowTransitive(a[1..], b[1..], c[1..]);
    }
  }

  lemma {:induction false} BelowTotal(a: string, b: string)
    requires a != b
    ensures Below(a, b) || Below(b, a)
  {
    if a != [] && b != [] && a[0] == b[0] {
      assert a == [a[0]] + a[1..] && b == [b[0]] + b[1..];
      BelowTotal(a[1..], b[1..]);
    }
  }

  lemma BelowAsymmetric(a: string, b: string)
    requires Below(a, b)
    ensures !Below(b, a)
  {
    if Below(b, a) {
      BelowTransitive(a, b, a);
      BelowIrreflexive(a);
    }
  }

  predicate StrictlyIncreasing(s: seq<string>) {
    forall i, j :: 0 <= i < j < |s| ==> Below(s[i], s[j])
  }

  /** Adds `k` to an increasing sequence of codes unless it is already there. */
  function Insert(s: seq<string>, k: string): (r: seq<string>)
    requires StrictlyIncreasing(s)
    ensures StrictlyIncreasing(r)
    ensures forall x :: x in r <==> x in s || x == k
  {
    if s == [] then [k]
    else if k == s[0] then s
    else if Below(k, s[0]) then
      assert forall j :: 0 < j < |s| ==> Below(k, s[j]) by {
        forall j | 0 < j < |s| ensures Below(k, s[j]) {
          BelowTransitive(k, s[0], s[j]);
        }
      }
      [k] + s
    else
      BelowTotal(k, s[0]);
      var tail := Insert(s[1..], k);
      assert forall x :: x in tail ==> Below(s[0], x);
      [s[0]] + tail
  }

  /** The distinct codes of `keys`, ascending: the group keys of a groupby. */
  function SortedDistinct(keys: seq<string>): (r: seq<string>)
    ensures StrictlyIncreasing(r)
    ensures forall x :: x in r <==> x in keys
    ensures |r| <= |keys|
    ensures |keys| > 0 ==> |r| > 0
  {
    if keys == [] then []
    else
      var prefix := keys[..|keys| - 1];
      assert keys == prefix + [keys[|keys| - 1]];
      InsertLength(SortedDistinct(prefix), keys[|keys| - 1]);
      Insert(SortedDistinct(prefix), keys[|keys| - 1])
  }

  lemma {:induction false} InsertLength(s: seq<string>, k: string)
    requires StrictlyIncreasing(s)
    ensures |Insert(s, k)| <= |s| + 1
  {
    if s != [] && k != s[0] && !Below(k, s[0]) {
      InsertLength(s[1..], k);
    }
  }

  /** Two increasing sequences of codes with the same elements are the same sequence. */
  lemma {:induction false} IncreasingUnique(a: seq<string>, b: seq<string>)
    requires StrictlyIncreasing(a) && StrictlyIncreasing(b)
    requires forall x :: x in a <==> x in b
    ensures a == b
    decreases |a|
  {
    if a == [] {
      if b != [] {
        Seqs.HeadIn(b);
        assert false;
      }
    } else {
      assert a[0] in b && b != [];
      assert b[0] in a;
      if a[0] != b[0] {
        var i :| 0 <= i < |a| && a[i] == b[0];
        var j :| 0 <= j < |b| && b[j] == a[0];
        assert i > 0 && j > 0;
        BelowAsymmetric(a[0], a[i]);
        assert false;
      }
      forall x
        ensures x in a[1..] <==> x in b[1..]
      {
        if x in a[1..] {
          var i :| 1 <= i < |a| && a[i] == x;
          BelowIrreflexive(x);
          assert x in b && x != b[0];
        }
        if x in b[1..] {
          var i :| 1 <= i < |b| && b[i] == x;
          BelowIrreflexive(x);
          assert x in a && x != a[0];
        }
      }
      IncreasingUnique(a[1..], b[1..]);
      assert a == [a[0]] + a[1..] && b == [b[0]] + b[1..];
    }
  }

  // ---------------------------------------------------------------------
  // Sums and means of the kinematic columns

  function Add(p: Kinematics, q: Kinematics): Kinematics {
    Kinematics(
      p.releaseX + q.releaseX, p.releaseY + q.releaseY, p.releaseZ + q.releaseZ,
      p.vx0 + q.vx0, p.vy0 + q.vy0, p.vz0 + q.vz0,
      p.ax + q.ax, p.ay + q.ay, p.az + q.az)
  }

  function Scale(p: Kinematics, c: real): Kinematics {
    Kinematics(
      c * p.releaseX, c * p.releaseY, c * p.releaseZ,
      c * p.vx0, c * p.vy0, c * p.vz0,
      c * p.ax, c * p.ay, c * p.az)
  }

  const Zero := Kinematics(0.0, 0.0, 0.0, 0.0, 0.0, 0.0, 0.0, 0.0, 0.0)

  /** Column-wise sum. */
  function Sum(ks: seq<Kinematics>): Kinematics {
    if ks == [] then Zero else Add(ks[0], Sum(ks[1..]))
  }

  lemma {:induction false} SumConcat(a: seq<Kinematics>, b: seq<Kinematics>)
    ensures Sum(a + b) == Add(Sum(a), Sum(b))
    decreases |a|
  {
    if a == [] {
      assert a + b == b;
    } else {
      assert (a + b)[1..] == a[1..] + b;
      SumConcat(a[1..], b);
    }
  }

  /** Summing is insensitive to the order of the rows. */
  lemma {:induction false} SumPermutation(a: seq<Kinematics>, b: seq<Kinematics>)
    requires multiset(a) == multiset(b)
    ensures Sum(a) == Sum(b)
    decreases |a|
  {
    if a == [] {
      assert |multiset(b)| == 0;
    } else {
      var i := Seqs.PermutationSplit(a, b);
      var left, right := b[..i], b[i + 1..];
      SumPermutation(a[1..], left + right);
      SumConcat(left, right);
      assert b == left + ([a[0]] + right);
      SumConcat(left, [a[0]] + right);
      assert ([a[0]] + right)[1..] == right;
      assert Sum([a[0]] + right) == Add(a[0], Sum(right));
      assert Sum(a) == Add(a[0], Add(Sum(left), Sum(right)));
    }
  }

  /** Column-wise arithmetic mean: each column's sum divided by the row count. */
  function Mean(ks: seq<Kinematics>): (m: Kinematics)
    requires |ks| > 0
    ensures Scale(m, |ks| as real) == Sum(ks)
  {
    var s, n := Sum(ks), |ks| as real;
    Kinematics(
      s.releaseX / n, s.releaseY / n, s.releaseZ / n,
      s.vx0 / n, s.vy0 / n, s.vz0 / n,
      s.ax / n, s.ay / n, s.az / n)
  }

  // ---------------------------------------------------------------------
  // Grouping

  datatype Group = Group(pitchType: string, mean: Kinematics)

  function TypeOf(p: Pitch): string { p.pitchType }

  /** The group keys: the distinct pitch types of the rows, ascending. */
  function PitchTypes(rows: seq<Pitch>): seq<string> {
    SortedDistinct(Seqs.Map(TypeOf, rows))
  }

  /** The kinematics of the rows of one pitch type, in row order. */
  function Members(rows: seq<Pitch>, pitchType: string): seq<Kinematics> {
    Seqs.Map((p: Pitch) => p.kin, Seqs.Filter((p: Pitch) => p.pitchType == pitchType, rows))
  }

  lemma MembersOfPresentType(rows: seq<Pitch>, pitchType: string)
    requires pitchType in Seqs.Map(TypeOf, rows)
    ensures |Members(rows, pitchType)| > 0
  {
    var i :| 0 <= i < |rows| && TypeOf(rows[i]) == pitchType;
    assert rows[i] in Seqs.Filter((p: Pitch) => p.pitchType == pitchType, rows);
  }

  /**
   * One group per distinct pitch type of the rows, in ascending order of the
   * code, each carrying the column means of that type's rows.
   */
  function GroupBy(rows: seq<Pitch>): (r: seq<Group>)
    ensures |r| == |PitchTypes(rows)|
    ensures |rows| > 0 ==> |r| > 0
    ensures forall i :: 0 <= i < |r| ==>
      && r[i].pitchType == PitchTypes(rows)[i]
      && |Members(rows, r[i].pitchType)| > 0
      && Scale(r[i].mean, |Members(rows, r[i].pitchType)| as real) == Sum(Members(rows, r[i].pitchType))
  {
    var keys := PitchTypes(rows);
    forall k | k in keys ensures |Members(rows, k)| > 0 {
      MembersOfPresentType(rows, k);
    }
    seq(|keys|, i requires 0 <= i < |keys| => Group(keys[i], Mean(Members(rows, keys[i]))))
  }

  /** The group keys are exactly the pitch types that occur, each once, ascending. */
  lemma GroupKeys(rows: seq<Pitch>)
    ensures StrictlyIncreasing(PitchTypes(rows))
    ensures forall k :: k in PitchTypes(rows) <==> exists i :: 0 <= i < |rows| && rows[i].pitchType == k
  {
    forall k ensures k in PitchTypes(rows) <==> exists i :: 0 <= i < |rows| && rows[i].pitchType == k {
      if k in PitchTypes(rows) {
        var i :| 0 <= i < |rows| && Seqs.Map(TypeOf, rows)[i] == k;
      }
      if exists i :: 0 <= i < |rows| && rows[i].pitchType == k {
        var i :| 0 <= i < |rows| && rows[i].pitchType == k;
        assert Seqs.Map(TypeOf, rows)[i] == k;
      }
    }
  }

  lemma PitchTypesPermutation(rows: seq<Pitch>, other: seq<Pitch>)
    requires multiset(rows) == multiset(other)
    ensures PitchTypes(rows) == PitchTypes(other)
  {
    Seqs.MapPermutation(TypeOf, rows, other);
    var a, b := Seqs.Map(TypeOf, rows), Seqs.Map(TypeOf, other);
    forall x ensures x in a <==> x in b {
      assert x in a <==> x in multiset(a);
      assert x in b <==> x in multiset(b);
    }
    IncreasingUnique(PitchTypes(rows), PitchTypes(other));
  }

  lemma MembersPermutation(rows: seq<Pitch>, other: seq<Pitch>, pitchType: string)
    requires multiset(rows) == multiset(other)
    ensures Sum(Members(rows, pitchType)) == Sum(Members(other, pitchType))
    ensures |Members(rows, pitchType)| == |Members(other, pitchType)|
  {
    var keep := (p: Pitch) => p.pitchType == pitchType;
    Seqs.FilterPermutation(keep, rows, other);
    var a, b := Seqs.Filter(keep, rows), Seqs.Filter(keep, other);
    assert |a| == |multiset(a)| == |multiset(b)| == |b|;
    Seqs.MapPermutation((p: Pitch) => p.kin, a, b);
    SumPermutation(Members(rows, pitchType), Members(other, pitchType));
  }

  /** Reordering the rows changes neither the groups, nor their order, nor their means. */
  lemma GroupByPermutation(rows: seq<Pitch>, other: seq<Pitch>)
    requires multiset(rows) == multiset(other)
    ensures GroupBy(rows) == GroupBy(other)
  {
    PitchTypesPermutation(rows, other);
    var keys := PitchTypes(rows);
    forall i | 0 <= i < |keys|
      ensures GroupBy(rows)[i] == GroupBy(other)[i]
    {
      MembersPermutation(rows, other, keys[i]);
    }
  }
}

=== FILE: names.dfy ===
/**
 * How a free-text player name becomes the key under which the store files
 * that player's pitches ("first last" becomes "Last, First"), and the title
 * of the scene. The name is lower-cased, split on runs of whitespace and the
 * first two words are capitalized; a name with fewer than two words fails on
 * the missing second word.
 */
module PlayerNames {
  import opened Wrappers
  import opened Errors
  import Seqs

  /** The characters Python's `str.split()` treats as whitespace. */
  predicate IsSpace(c: char) {
    ('\t' <= c <= '\r') || ('\U{1C}' <= c <= ' ') || c == '\U{85}' || c == '\U{A0}' ||
    c == '\U{1680}' || ('\U{2000}' <= c <= '\U{200A}') || c == '\U{2028}' || c == '\U{2029}' ||
    c == '\U{202F}' || c == '\U{205F}' || c == '\U{3000}'
  }

  /** A word: what `split()` can return, non-empty and free of whitespace. */
  predicate IsWord(w: string) {
    |w| > 0 && forall i :: 0 <= i < |w| ==> !IsSpace(w[i])
  }

  predicate AllWords(ws: seq<string>) {
    forall j :: 0 <= j < |ws| ==> IsWord(ws[j])
  }

  function LowerChar(c: char): char {
    if 'A' <= c <= 'Z' then (c as int + 32) as char else c
  }

  function UpperChar(c: char): char {
    if 'a' <= c <= 'z' then (c as int - 32) as char else c
  }

  /** `str.lower()` on ASCII letters. */
  function Lower(s: string): (r: string)
    ensures |r| == |s|
  {
    seq(|s|, i requires 0 <= i < |s| => LowerChar(s[i]))
  }

  /** `str.capitalize()`: first character upper-case, the rest lower-case. */
  function Capitalize(w: string): string {
    if w == [] then [] else [UpperChar(w[0])] + Lower(w[1..])
  }

  /** Drops the leading whitespace of `s`. */
  function TrimStart(s: string): (r: string)
    ensures |r| <= |s|
    ensures r == [] || !IsSpace(r[0])
  {
    if s != [] && IsSpace(s[0]) then TrimStart(s[1..]) else s
  }

  /** The length of the longest whitespace-free prefix of `s`. */
  function WordLength(s: string): (n: nat)
    ensures n <= |s|
    ensures forall i :: 0 <= i < n ==> !IsSpace(s[i])
    ensures n == |s| || IsSpace(s[n])
  {
    if s == [] || IsSpace(s[0]) then 0 else 1 + WordLength(s[1..])
  }

  /** `str.split()` with no separator: the maximal runs of non-whitespace, in order. */
  function Split(s: string): (r: seq<string>)
    ensures AllWords(r)
    decreases |s|
  {
    var t := TrimStart(s);
    if t == [] then []
    else
      var n := WordLength(t);
      [t[..n]] + Split(t[n..])
  }

  /** Words separated by single spaces. */
  function Join(ws: seq<string>): string {
    if |ws| == 0 then ""
    else if |ws| == 1 then ws[0]
    else ws[0] + " " + Join(ws[1..])
  }

  /** The store key: the second word capitalized, a comma and a space, the first word capitalized. */
  function StoreKey(playerName: string): (r: Result<string, Error>)
    ensures r.Err? ==> r.error == InvalidName
  {
    var words := Split(Lower(playerName));
    if |words| < 2 then Err(InvalidName)
    else Ok(Capitalize(words[1]) + ", " + Capitalize(words[0]))
  }

  /** The scene title: the first and second words capitalized, a space between, then ", 2024". */
  function Title(playerName: string): (r: Result<string, Error>)
    ensures r.Ok? <==> StoreKey(playerName).Ok?
  {
    var words := Split(Lower(playerName));
    if |words| < 2 then Err(InvalidName)
    else Ok(Capitalize(words[0]) + " " + Capitalize(words[1]) + ", 2024")
  }

  // ---------------------------------------------------------------------
  // Lower-casing does not move word boundaries

  lemma LowerCharSpace(c: char)
    ensures IsSpace(LowerChar(c)) <==> IsSpace(c)
  {
  }

  lemma LowerSlices(s: string, n: nat)
    requires n <= |s|
    ensures Lower(s)[..n] == Lower(s[..n]) && Lower(s)[n..] == Lower(s[n..])
  {
  }

  lemma {:induction false} TrimStartLower(s: string)
    ensures TrimStart(Lower(s)) == Lower(TrimStart(s))
    decreases |s|
  {
    if s != [] {
      LowerCharSpace(s[0]);
      LowerSlices(s, 1);
      if IsSpace(s[0]) {
        TrimStartLower(s[1..]);
      }
    }
  }

  lemma {:induction false} WordLengthLower(s: string)
    ensures WordLength(Lower(s)) == WordLength(s)
    decreases |s|
  {
    if s != [] {
      LowerCharSpace(s[0]);
      LowerSlices(s, 1);
      WordLengthLower(s[1..]);
    }
  }

  /** Splitting a lower-cased name gives the lower-cased words of the name. */
  lemma {:induction false} SplitLower(s: string)
    ensures Split(Lower(s)) == Seqs.Map(Lower, Split(s))
    decreases |s|
  {
    var t := TrimStart(s);
    TrimStartLower(s);
    if t == [] {
      assert Split(s) == [];
      assert Split(Lower(s)) == [];
      assert Seqs.Map(Lower, Split(s)) == [];
    } else {
      var n := WordLength(t);
      var lt := Lower(t);
      WordLengthLower(t);
      LowerSlices(t, n);
      assert TrimStart(Lower(s)) == lt != [];
      var rest := Split(t[n..]);
      assert Split(s) == [t[..n]] + rest;
      assert Split(Lower(s)) == [lt[..n]] + Split(lt[n..]);
      SplitLower(t[n..]);
      assert Split(Lower(s)) == [Lower(t[..n])] + Seqs.Map(Lower, rest);
      Seqs.MapConcat(Lower, [t[..n]], rest);
      assert Seqs.Map(Lower, [t[..n]]) == [Lower(t[..n])];
      assert Seqs.Map(Lower, Split(s)) == [Lower(t[..n])] + Seqs.Map(Lower, rest);
    }
  }

  lemma CapitalizeLower(w: string)
    ensures Capitalize(Lower(w)) == Capitalize(w)
  {
    if w != [] {
      LowerSlices(w, 1);
      assert Lower(Lower(w[1..])) == Lower(w[1..]);
    }
  }

  /**
   * The key in terms of the words of the name as typed: the second word
   * capitalized, a comma and a space, the first word capitalized; fewer than
   * two words is the index error. Words after the second play no part.
   */
  lemma StoreKeyOfWords(playerName: string)
    ensures var words := Split(playerName);
      StoreKey(playerName) ==
        if |words| < 2 then Err(InvalidName)
        else Ok(Capitalize(words[1]) + ", " + Capitalize(words[0]))
  {
    var words := Split(playerName);
    SplitLower(playerName);
    if |words| >= 2 {
      CapitalizeLower(words[0]);
      CapitalizeLower(words[1]);
    }
  }

  /**
   * The title in terms of the words of the name as typed: the first and the
   * second word capitalized, a space between, then ", 2024".
   */
  lemma TitleOfWords(playerName: string)
    ensures var words := Split(playerName);
      Title(playerName) ==
        if |words| < 2 then Err(InvalidName)
        else Ok(Capitalize(words[0]) + " " + Capitalize(words[1]) + ", 2024")
  {
    var words := Split(playerName);
    SplitLower(playerName);
    if |words| >= 2 {
      CapitalizeLower(words[0]);
      CapitalizeLower(words[1]);
    }
  }

  /** Letter case in the typed name does not change the key. */
  lemma StoreKeyIgnoresCase(a: string, b: string)
    requires Lower(a) == Lower(b)
    ensures StoreKey(a) == StoreKey(b) && Title(a) == Title(b)
  {
  }

  // ---------------------------------------------------------------------
  // Splitting undoes joining

  lemma {:induction false} WordLengthOfWord(w: string, tail: string)
    requires IsWord(w)
    requires tail == [] || IsSpace(tail[0])
    ensures WordLength(w + tail) == |w|
    decreases |w|
  {
    assert (w + tail)[0] == w[0];
    if |w| > 1 {
      assert (w + tail)[1..] == w[1..] + tail;
      WordLengthOfWord(w[1..], tail);
    } else {
      assert (w + tail)[1..] == tail;
    }
  }

  lemma SplitSkipsSpace(c: char, s: string)
    requires IsSpace(c)
    ensures Split([c] + s) == Split(s)
  {
    assert ([c] + s)[1..] == s;
  }

  /** A word followed by whitespace (or nothing) splits off as the first word. */
  lemma SplitWordFirst(w: string, tail: string)
    requires IsWord(w)
    requires tail == [] || IsSpace(tail[0])
    ensures Split(w + tail) == [w] + Split(tail)
  {
    var s := w + tail;
    assert s[0] == w[0];
    assert TrimStart(s) == s;
    WordLengthOfWord(w, tail);
    assert s[..|w|] == w && s[|w|..] == tail;
  }

  /** Splitting words joined by single spaces gives back the words. */
  lemma {:induction false} SplitJoin(ws: seq<string>)
    requires AllWords(ws)
    ensures Split(Join(ws)) == ws
    decreases |ws|
  {
    if |ws| == 1 {
      SplitWordFirst(ws[0], "");
      assert ws[0] + "" == ws[0];
    } else if |ws| > 1 {
      var rest := Join(ws[1..]);
      assert Join(ws) == ws[0] + ([' '] + rest);
      SplitWordFirst(ws[0], [' '] + rest);
      SplitSkipsSpace(' ', rest);
      SplitJoin(ws[1..]);
      assert ws == [ws[0]] + ws[1..];
    }
  }

  /**
   * A name typed as words separated by single spaces: the key is "Last, First"
   * capitalized from its first two words, and the title "First Last, 2024".
   */
  lemma KeyOfTypedName(first: string, last: string, rest: seq<string>)
    requires IsWord(first) && IsWord(last) && AllWords(rest)
    ensures StoreKey(Join([first, last] + rest)) == Ok(Capitalize(last) + ", " + Capitalize(first))
    ensures Title(Join([first, last] + rest)) == Ok(Capitalize(first) + " " + Capitalize(last) + ", 2024")
  {
    var ws := [first, last] + rest;
    SplitJoin(ws);
    StoreKeyOfWords(Join(ws));
    SplitLower(Join(ws));
    CapitalizeLower(first);
    CapitalizeLower(last);
  }

  /** A name made of a single word (or none) has no key. */
  lemma SingleWordHasNoKey(w: string)
    requires IsWord(w)
    ensures StoreKey(w) == Err(InvalidName)
  {
    SplitJoin([w]);
    StoreKeyOfWords(w);
  }
}

=== FILE: pitches.dfy ===
/**
 * The per-pitch records read from the store and the handedness adjustment
 * that puts left- and right-handed pitchers on one convention before their
 * pitches are averaged: a right-hander's release point is mirrored across
 * the centre line, a left-hander's horizontal acceleration is negated.
 */
module Pitches {
  import Seqs

  /** The nine numeric columns averaged per pitch type: feet, feet per second, feet per second squared. */
  datatype Kinematics = Kinematics(
    releaseX: real, releaseY: real, releaseZ: real,
    vx0: real, vy0: real, vz0: real,
    ax: real, ay: real, az: real)

  /** One stored pitch: the player it belongs to, its type code, the throwing hand code and its kinematics. */
  datatype Pitch = Pitch(playerName: string, pitchType: string, throws: string, kin: Kinematics)

  /** The first column rewrite: `release_pos_x` negated on rows thrown right-handed. */
  function AdjustReleaseX(p: Pitch): Pitch {
    if p.throws == "R" then p.(kin := p.kin.(releaseX := -p.kin.releaseX)) else p
  }

  /** The second column rewrite: `ax` negated on rows thrown left-handed. */
  function AdjustAx(p: Pitch): Pitch {
    if p.throws == "L" then p.(kin := p.kin.(ax := -p.kin.ax)) else p
  }

  /** Both rewrites, in the order the program applies them. */
  function Normalize(p: Pitch): (q: Pitch)
    ensures p.throws == "R" ==> q == p.(kin := p.kin.(releaseX := -p.kin.releaseX))
    ensures p.throws == "L" ==> q == p.(kin := p.kin.(ax := -p.kin.ax))
    ensures p.throws != "R" && p.throws != "L" ==> q == p
  {
    AdjustAx(AdjustReleaseX(p))
  }

  /**
   * Overwrites the `release_pos_x` column and then the `ax` column of the
   * frame, row by row; the result is every row normalized.
   */
  method AdjustForHandedness(frame: seq<Pitch>) returns (df: seq<Pitch>)
    ensures df == Seqs.Map(Normalize, frame)
  {
    df := frame;
    var i := 0;
    while i < |df|
      invariant 0 <= i <= |df| == |frame|
      invariant forall j :: 0 <= j < i ==> df[j] == AdjustReleaseX(frame[j])
      invariant forall j :: i <= j < |df| ==> df[j] == frame[j]
    {
      df := df[i := AdjustReleaseX(df[i])];
      i := i + 1;
    }
    i := 0;
    while i < |df|
      invariant 0 <= i <= |df| == |frame|
      invariant forall j :: 0 <= j < i ==> df[j] == Normalize(frame[j])
      invariant forall j :: i <= j < |df| ==> df[j] == AdjustReleaseX(frame[j])
    {
      df := df[i := AdjustAx(df[i])];
      i := i + 1;
    }
  }

  /** The adjustment keeps the player, the pitch type and the hand of every row. */
  lemma NormalizeKeepsLabels(p: Pitch)
    ensures Normalize(p).playerName == p.playerName
    ensures Normalize(p).pitchType == p.pitchType
    ensures Normalize(p).throws == p.throws
  {
  }

  /** Adjusting twice gives back the original row. */
  lemma NormalizeInvolution(p: Pitch)
    ensures Normalize(Normalize(p)) == p
  {
  }

  /** The two column rewrites touch different fields, so their order does not matter. */
  lemma AdjustmentsCommute(p: Pitch)
    ensures AdjustAx(AdjustReleaseX(p)) == AdjustReleaseX(AdjustAx(p))
  {
  }

  /** Adjusting a whole frame twice gives back the frame. */
  lemma {:induction false} NormalizeAllInvolution(frame: seq<Pitch>)
    ensures Seqs.Map(Normalize, Seqs.Map(Normalize, frame)) == frame
  {
    forall j | 0 <= j < |frame|
      ensures Seqs.Map(Normalize, Seqs.Map(Normalize, frame))[j] == frame[j]
    {
      NormalizeInvolution(frame[j]);
    }
  }
}

=== FILE: scene.dfy ===
/**
 * The scene for one player: three ground planes, the strike-zone wireframe,
 * and for every pitch type (in group order) its clipped trajectory curve and
 * the pair of markers at its release point and its last visible sample.
 * `SceneOf` is the whole request as a function; `Plot` builds the same scene
 * the way the program does, appending traces to a figure in loops.
 */
module Scene {
  import opened Wrappers
  import opened Errors
  import opened Pitches
  import opened Grouping
  import opened Trajectory
  import PlayerNames
  import Seqs

  // Strike zone, in feet. The front plane is Trajectory.ZoneFront.
  const ZoneTop: real := 3.5
  const ZoneBottom: real := 1.6
  const ZoneLeft: real := -0.833
  const ZoneRight: real := 0.833
  const ZoneBack: real := 1.714
  /** The ground planes lie half a foot below the bottom of the zone. */
  const GroundHeight: real := ZoneBottom - 0.5

  /** A fixed colour, or the palette colour of the group with that index. */
  datatype Color = Named(name: string) | Palette(index: nat)

  /** One plotted object. `legend` is the entry a curve contributes to the legend, if any. */
  datatype Trace =
    | Surface(xs: seq<real>, ys: seq<real>, height: real, color: Color)
    | Lines(xs: seq<real>, ys: seq<real>, zs: seq<real>, color: Color, width: nat, legend: Option<string>)
    | Markers(xs: seq<real>, ys: seq<real>, zs: seq<real>, color: Color, size: nat)

  /** What a successful request yields: the figure's traces, the legend labels collected, the title. */
  datatype Scene = Scene(traces: seq<Trace>, legend: seq<string>, title: string)

  /** The figure the program appends traces to. */
  class Figure {
    var traces: seq<Trace>

    constructor ()
      ensures traces == []
    {
      traces := [];
    }

    method AddTrace(t: Trace)
      modifies this
      ensures traces == old(traces) + [t]
    {
      traces := traces + [t];
    }
  }

  // ---------------------------------------------------------------------
  // Static geometry

  /** A flat 10 x 10 surface over x in [-5, 5] and y in [yLo, yHi]. */
  function Ground(yLo: real, yHi: real, color: string): Trace {
    Surface(Linspace(-5.0, 5.0, 10), Linspace(yLo, yHi, 10), GroundHeight, Named(color))
  }

  /** Ground, mound and batter's box, in the order they are added. */
  function Planes(): seq<Trace> {
    [Ground(8.0, 45.0, "green"), Ground(45.0, 75.0, "brown"), Ground(0.0, 8.0, "brown")]
  }

  /** The closed outline of the zone at height `z`. */
  function Outline(z: real): Trace {
    Lines([ZoneLeft, ZoneRight, ZoneRight, ZoneLeft, ZoneLeft],
          [ZoneFront, ZoneFront, ZoneBack, ZoneBack, ZoneFront],
          [z, z, z, z, z], Named("black"), 4, None)
  }

  /** A vertical edge of the zone at corner (x, y). */
  function Edge(corner: (real, real)): Trace {
    Lines([corner.0, corner.0], [corner.1, corner.1], [ZoneBottom, ZoneTop], Named("black"), 4, None)
  }

  const OutlineHeights: seq<real> := [ZoneTop, ZoneBottom]
  const Corners: seq<(real, real)> :=
    [(ZoneLeft, ZoneFront), (ZoneRight, ZoneFront), (ZoneLeft, ZoneBack), (ZoneRight, ZoneBack)]

  function Wireframe(): seq<Trace> {
    Seqs.Map(Outline, OutlineHeights) + Seqs.Map(Edge, Corners)
  }

  function StaticTraces(): seq<Trace> {
    Planes() + Wireframe()
  }

  /**
   * Nine static traces: three planes at the ground height tiling y from 0 to
   * 75 feet, two closed outlines at the top and bottom of the zone, and four
   * edges running from the bottom to the top of the zone. None of them is in
   * the legend.
   */
  lemma StaticShape()
    ensures |StaticTraces()| == 9
    ensures forall i :: 0 <= i < 3 ==>
      StaticTraces()[i].Surface? && StaticTraces()[i].height == ZoneBottom - 0.5 &&
      StaticTraces()[i].xs[0] == -5.0 && StaticTraces()[i].xs[9] == 5.0
    ensures StaticTraces()[2].ys[0] == 0.0 && StaticTraces()[2].ys[9] == StaticTraces()[0].ys[0] == 8.0
    ensures StaticTraces()[0].ys[9] == StaticTraces()[1].ys[0] == 45.0 && StaticTraces()[1].ys[9] == 75.0
    ensures forall i :: 3 <= i < 9 ==> StaticTraces()[i].Lines? && StaticTraces()[i].legend == None
    ensures forall i :: 3 <= i < 5 ==>
      var t := StaticTraces()[i];
      |t.xs| == |t.ys| == |t.zs| == 5 && t.xs[0] == t.xs[4] && t.ys[0] == t.ys[4] &&
      forall j :: 0 <= j < 5 ==> t.zs[j] == if i == 3 then ZoneTop else ZoneBottom
    ensures forall i :: 5 <= i < 9 ==>
      var t := StaticTraces()[i];
      t.xs == [Corners[i - 5].0, Corners[i - 5].0] && t.ys == [Corners[i - 5].1, Corners[i - 5].1] &&
      t.zs == [ZoneBottom, ZoneTop]
  {
  }

  /**
   * The zone's back plane is at the same y as its front plane, so each outline
   * goes back and forth along one segment at y = 1.714, and the two back edges
   * redraw the two front ones: the wireframe is the zone's front face.
   */
  lemma WireframeIsFrontFace()
    ensures forall z: real :: (Outline(z).xs == [ZoneLeft, ZoneRight, ZoneRight, ZoneLeft, ZoneLeft] &&
      Outline(z).ys == [ZoneFront, ZoneFront, ZoneFront, ZoneFront, ZoneFront])
    ensures Corners[2] == Corners[0] && Corners[3] == Corners[1]
    ensures Edge(Corners[2]) == Edge(Corners[0]) && Edge(Corners[3]) == Edge(Corners[1])
  {
  }

  /**
   * The number of static traces, on its own: a slice of StaticShape that keeps
   * the lemmas needing only the count from unfolding the whole static shape.
   */
  lemma StaticCount()
    ensures |StaticTraces()| == 9
  {
    StaticShape();
  }

  /** Adds the planes, then the two outlines, then the four edges. */
  method AddStaticTraces(fig: Figure)
    modifies fig
    ensures fig.traces == old(fig.traces) + StaticTraces()
  {
    AddPlanes(fig);
    AddOutlines(fig);
    AddEdges(fig);
  }

  method AddPlanes(fig: Figure)
    modifies fig
    ensures fig.traces == old(fig.traces) + Planes()
  {
    fig.AddTrace(Ground(8.0, 45.0, "green"));
    fig.AddTrace(Ground(45.0, 75.0, "brown"));
    fig.AddTrace(Ground(0.0, 8.0, "brown"));
  }

  /** One closed outline per height, top first. */
  method AddOutlines(fig: Figure)
    modifies fig
    ensures fig.traces == old(fig.traces) + Seqs.Map(Outline, OutlineHeights)
  {
    var heights := OutlineHeights;
    for k := 0 to |heights|
      invariant fig.traces == old(fig.traces) + Seqs.Map(Outline, heights[..k])
    {
      assert heights[..k + 1] == heights[..k] + [heights[k]];
      Seqs.MapConcat(Outline, heights[..k], [heights[k]]);
      fig.AddTrace(Outline(heights[k]));
    }
    assert heights[..|heights|] == heights;
  }

  /** One vertical edge per corner, front corners first. */
  method AddEdges(fig: Figure)
    modifies fig
    ensures fig.traces == old(fig.traces) + Seqs.Map(Edge, Corners)
  {
    for k := 0 to |Corners|
      invariant fig.traces == old(fig.traces) + Seqs.Map(Edge, Corners[..k])
    {
      assert Corners[..k + 1] == Corners[..k] + [Corners[k]];
      Seqs.MapConcat(Edge, Corners[..k], [Corners[k]]);
      fig.AddTrace(Edge(Corners[k]));
    }
    assert Corners[..|Corners|] == Corners;
  }

  // ---------------------------------------------------------------------
  // One curve and one marker pair per pitch type

  /** The clipped path of a group's mean pitch. */
  function GroupPath(g: Group): (c: Path)
    ensures c.Aligned()
  {
    Clip(Sample(g.mean))
  }

  /** The labelled curve of group `i`, in palette colour `i`. */
  function Curve(g: Group, c: Path, i: nat): Trace {
    Lines(c.xs, c.ys, c.zs, Palette(i), 8, Some(g.pitchType))
  }

  /** The unlabelled markers at the release point and the last kept sample, in palette colour `i`. */
  function Endpoints(g: Group, c: Path, i: nat): Trace
    requires c.Aligned() && |c.xs| > 0
  {
    var last := |c.xs| - 1;
    Markers([g.mean.releaseX, c.xs[last]], [g.mean.releaseY, c.ys[last]], [g.mean.releaseZ, c.zs[last]], Palette(i), 6)
  }

  predicate AllAligned(paths: seq<Path>) {
    forall i :: 0 <= i < |paths| ==> paths[i].Aligned()
  }

  /**
   * The traces of all groups in order, group `i` drawn along `paths[i]`: its
   * curve, then its marker pair. An empty path has no last point and aborts, so the first
   * group with nothing visible decides the error.
   */
  function DynamicTraces(gs: seq<Group>, paths: seq<Path>): (r: Result<seq<Trace>, Error>)
    requires |gs| == |paths| && AllAligned(paths)
    ensures r.Ok? <==> forall i :: 0 <= i < |paths| ==> |paths[i].ys| > 0
    ensures r.Ok? ==> |r.value| == 2 * |gs|
  {
    if gs == [] then Ok([])
    else
      var n := |gs| - 1;
      match DynamicTraces(gs[..n], paths[..n])
      case Err(e) => Err(e)
      case Ok(prefix) =>
        if |paths[n].xs| == 0 then Err(NoVisibleSample(gs[n].pitchType))
        else Ok(prefix + [Curve(gs[n], paths[n], n), Endpoints(gs[n], paths[n], n)])
  }

  /** Traces 2i and 2i + 1 are the curve and the marker pair of group i, in its palette colour. */
  lemma {:induction false} DynamicTracesAt(gs: seq<Group>, paths: seq<Path>, i: nat)
    requires |gs| == |paths| && AllAligned(paths)
    requires DynamicTraces(gs, paths).Ok? && i < |gs|
    ensures var ts := DynamicTraces(gs, paths).value;
      && |paths[i].xs| > 0
      && ts[2 * i] == Curve(gs[i], paths[i], i)
      && ts[2 * i + 1] == Endpoints(gs[i], paths[i], i)
    decreases |gs|
  {
    var n := |gs| - 1;
    var prefix := DynamicTraces(gs[..n], paths[..n]).value;
    if i < n {
      DynamicTracesAt(gs[..n], paths[..n], i);
      assert gs[..n][i] == gs[i] && paths[..n][i] == paths[i];
    }
  }

  /** A failure names the first group whose path is empty. */
  lemma {:induction false} DynamicFirstFailure(gs: seq<Group>, paths: seq<Path>) returns (i: nat)
    requires |gs| == |paths| && AllAligned(paths)
    requires DynamicTraces(gs, paths).Err?
    ensures i < |gs| && |paths[i].ys| == 0
    ensures forall j :: 0 <= j < i ==> |paths[j].ys| > 0
    ensures DynamicTraces(gs, paths).error == NoVisibleSample(gs[i].pitchType)
    decreases |gs|
  {
    var n := |gs| - 1;
    assert AllAligned(paths[..n]);
    if DynamicTraces(gs[..n], paths[..n]).Err? {
      i := DynamicFirstFailure(gs[..n], paths[..n]);
      assert gs[..n][i] == gs[i];
      assert forall j :: 0 <= j < i ==> paths[..n][j] == paths[j];
    } else {
      i := n;
      assert forall j :: 0 <= j < n ==> paths[..n][j] == paths[j];
    }
  }

  /** Once some prefix of the groups fails, the whole sequence fails the same way. */
  lemma {:induction false} DynamicPrefixFails(gs: seq<Group>, paths: seq<Path>, n: nat)
    requires |gs| == |paths| && AllAligned(paths)
    requires n <= |gs| && DynamicTraces(gs[..n], paths[..n]).Err?
    ensures DynamicTraces(gs, paths) == DynamicTraces(gs[..n], paths[..n])
    decreases |gs| - n
  {
    if n < |gs| {
      assert gs[..n + 1][..n] == gs[..n] && paths[..n + 1][..n] == paths[..n];
      assert DynamicTraces(gs[..n + 1], paths[..n + 1]) == DynamicTraces(gs[..n], paths[..n]);
      DynamicPrefixFails(gs, paths, n + 1);
    } else {
      assert gs[..n] == gs && paths[..n] == paths;
    }
  }

  /** The pitch types of the groups, in group order. */
  function Labels(gs: seq<Group>): (r: seq<string>)
    ensures |r| == |gs|
  {
    Seqs.Map((g: Group) => g.pitchType, gs)
  }

  /** The labels in order of first occurrence, each once: what the membership-guarded appends collect. */
  function FirstOccurrences(s: seq<string>): (r: seq<string>)
    ensures forall x :: x in r <==> x in s
    ensures forall i, j :: 0 <= i < j < |r| ==> r[i] != r[j]
  {
    if s == [] then []
    else
      var n := |s| - 1;
      var prefix := FirstOccurrences(s[..n]);
      assert s == s[..n] + [s[n]];
      if s[n] in prefix then prefix else prefix + [s[n]]
  }

  /** A duplicate-free list of labels is collected unchanged. */
  lemma {:induction false} FirstOccurrencesOfDistinct(s: seq<string>)
    requires forall i, j :: 0 <= i < j < |s| ==> s[i] != s[j]
    ensures FirstOccurrences(s) == s
  {
    if s != [] {
      var n := |s| - 1;
      FirstOccurrencesOfDistinct(s[..n]);
      assert s[n] !in s[..n];
      assert s == s[..n] + [s[n]];
    }
  }

  /**
   * A visible group extends the traces of the groups before it by its curve
   * and markers, and the legend by its label unless the label is there.
   */
  lemma GroupStep(gs: seq<Group>, paths: seq<Path>, i: nat, prefix: seq<Trace>, legend: seq<string>)
    requires |gs| == |paths| && AllAligned(paths) && i < |gs| && |paths[i].xs| > 0
    requires DynamicTraces(gs[..i], paths[..i]) == Ok(prefix)
    requires legend == FirstOccurrences(Labels(gs[..i]))
    ensures DynamicTraces(gs[..i + 1], paths[..i + 1]) ==
      Ok(prefix + [Curve(gs[i], paths[i], i), Endpoints(gs[i], paths[i], i)])
    ensures FirstOccurrences(Labels(gs[..i + 1])) ==
      if gs[i].pitchType in legend then legend else legend + [gs[i].pitchType]
  {
    assert gs[..i + 1][..i] == gs[..i] && paths[..i + 1][..i] == paths[..i];
    LabelsStep(gs, i);
  }

  /** The first group with nothing visible makes the whole sequence fail, naming it. */
  lemma DynamicStop(gs: seq<Group>, paths: seq<Path>, i: nat, prefix: seq<Trace>)
    requires |gs| == |paths| && AllAligned(paths) && i < |gs| && |paths[i].xs| == 0
    requires DynamicTraces(gs[..i], paths[..i]) == Ok(prefix)
    ensures DynamicTraces(gs, paths) == Err(NoVisibleSample(gs[i].pitchType))
  {
    assert gs[..i + 1][..i] == gs[..i] && paths[..i + 1][..i] == paths[..i];
    assert DynamicTraces(gs[..i + 1], paths[..i + 1]) == Err(NoVisibleSample(gs[i].pitchType));
    DynamicPrefixFails(gs, paths, i + 1);
  }

  lemma LabelsStep(gs: seq<Group>, i: nat)
    requires i < |gs|
    ensures FirstOccurrences(Labels(gs[..i + 1])) ==
      var prefix := FirstOccurrences(Labels(gs[..i]));
      if gs[i].pitchType in prefix then prefix else prefix + [gs[i].pitchType]
  {
    assert Labels(gs[..i + 1])[..i] == Labels(gs[..i]);
  }

  // ---------------------------------------------------------------------
  // The request

  /** The store's query: the rows whose player name equals the key, in store order. */
  function Fetch(key: string, store: seq<Pitch>): seq<Pitch> {
    Seqs.Filter((p: Pitch) => p.playerName == key, store)
  }

  /** The query returns rows of the store filed under the key, and every such row. */
  lemma FetchMatches(key: string, store: seq<Pitch>)
    ensures |Fetch(key, store)| <= |store|
    ensures forall i :: 0 <= i < |Fetch(key, store)| ==> Fetch(key, store)[i] in store && Fetch(key, store)[i].playerName == key
    ensures forall i :: 0 <= i < |store| && store[i].playerName == key ==> store[i] in Fetch(key, store)
  {
  }

  /** The player's rows, adjusted for handedness and grouped by pitch type. */
  function PlayerGroups(key: string, store: seq<Pitch>): seq<Group> {
    GroupBy(Seqs.Map(Normalize, Fetch(key, store)))
  }

  /**
   * The whole request: the name becomes the key, the player's rows are
   * fetched, an empty result is an error naming the player, the rows are
   * adjusted for handedness and grouped, and each group contributes its
   * traces after the static ones.
   */
  function SceneOf(playerName: string, store: seq<Pitch>): Result<Scene, Error> {
    var key :- PlayerNames.StoreKey(playerName);
    if |Fetch(key, store)| == 0 then Err(EmptyDataset(playerName))
    else Assemble(playerName, PlayerGroups(key, store))
  }

  /** The figure for some groups: the static traces, then each group's traces, and the title. */
  function Assemble(playerName: string, groups: seq<Group>): Result<Scene, Error> {
    var dynamic :- DynamicTraces(groups, Seqs.Map(GroupPath, groups));
    var title :- PlayerNames.Title(playerName);
    Ok(Scene(StaticTraces() + dynamic, FirstOccurrences(Labels(groups)), title))
  }

  /**
   * Group `i` is the first with nothing visible, and `after` is `before` with
   * the traces of the groups ahead of it and its own curve appended.
   */
  predicate StoppedAt(groups: seq<Group>, paths: seq<Path>, i: nat, before: seq<Trace>, after: seq<Trace>) {
    && |groups| == |paths| && AllAligned(paths) && i < |groups| && |paths[i].xs| == 0
    && DynamicTraces(groups[..i], paths[..i]).Ok?
    && after == before + DynamicTraces(groups[..i], paths[..i]).value + [Curve(groups[i], paths[i], i)]
  }

  /**
   * The loop over the groups: add the curve, fail if nothing of the path is
   * visible, add the marker pair, and append the label unless it is already
   * in the legend list. Yields the legend list. On failure the figure keeps
   * the traces of the groups before the first invisible one and that group's
   * curve, which was added before its markers failed.
   */
  method AddGroupTraces(fig: Figure, groups: seq<Group>) returns (res: Result<seq<string>, Error>)
    modifies fig
    ensures var paths := Seqs.Map(GroupPath, groups);
      match DynamicTraces(groups, paths)
      case Ok(ts) => res == Ok(FirstOccurrences(Labels(groups))) && fig.traces == old(fig.traces) + ts
      case Err(e) => res == Err(e) && exists i :: StoppedAt(groups, paths, i, old(fig.traces), fig.traces)
  {
    ghost var paths := Seqs.Map(GroupPath, groups);
    assert AllAligned(paths);
    ghost var start := fig.traces;
    ghost var added: seq<Trace> := [];
    var legendLabels: seq<string> := [];
    var i := 0;
    while i < |groups|
      invariant 0 <= i <= |groups|
      invariant DynamicTraces(groups[..i], paths[..i]) == Ok(added)
      invariant fig.traces == start + added
      invariant legendLabels == FirstOccurrences(Labels(groups[..i]))
    {
      var g := groups[i];
      var c := GroupPath(g);
      assert c == paths[i];
      fig.AddTrace(Curve(g, c, i));
      if |c.xs| == 0 {
        DynamicStop(groups, paths, i, added);
        assert StoppedAt(groups, paths, i, start, fig.traces);
        return Err(NoVisibleSample(g.pitchType));
      }
      var markers := Endpoints(g, c, i);
      fig.AddTrace(markers);
      GroupStep(groups, paths, i, added, legendLabels);
      Seqs.AppendPair(start, added, Curve(g, c, i), markers);
      added := added + [Curve(g, c, i), markers];
      if g.pitchType !in legendLabels {
        legendLabels := legendLabels + [g.pitchType];
      }
      i := i + 1;
    }
    assert groups[..i] == groups && paths[..i] == paths;
    res := Ok(legendLabels);
  }

  /**
   * Builds the scene as the program does: fetch, fail on no rows, rewrite the
   * handedness columns, group, and draw the groups.
   */
  method Plot(playerName: string, store: seq<Pitch>) returns (res: Result<Scene, Error>)
    ensures res == SceneOf(playerName, store)
  {
    var key := PlayerNames.StoreKey(playerName);
    if key.Err? {
      return Err(key.error);
    }
    var rows := Fetch(key.value, store);
    if |rows| == 0 {
      return Err(EmptyDataset(playerName));
    }
    var df := AdjustForHandedness(rows);
    var groups := GroupBy(df);
    res := Draw(playerName, groups);
  }

  /**
   * Adds the static traces and then the traces of every group to a fresh
   * figure, and titles it.
   */
  method Draw(playerName: string, groups: seq<Group>) returns (res: Result<Scene, Error>)
    ensures res == Assemble(playerName, groups)
  {
    ghost var dynamic := DynamicTraces(groups, Seqs.Map(GroupPath, groups));
    var fig := new Figure();
    AddStaticTraces(fig);
    assert fig.traces == StaticTraces();
    var legend := AddGroupTraces(fig, groups);
    if legend.Err? {
      assert dynamic == Err(legend.error);
      return Err(legend.error);
    }
    assert dynamic.Ok? && fig.traces == StaticTraces() + dynamic.value;
    var title := PlayerNames.Title(playerName);
    if title.Err? {
      return Err(title.error);
    }
    res := Ok(Scene(fig.traces, legend.value, title.value));
  }
}

=== FILE: scene_facts.dfy ===
/**
 * What a request yields, stated over `Scene.SceneOf`: which error each kind
 * of bad input produces, the layout of a successful scene, and that the
 * order of the rows in the store does not matter.
 */
module SceneFacts {
  import opened Wrappers
  import opened Errors
  import opened Pitches
  import opened Grouping
  import opened Trajectory
  import opened Scene
  import PlayerNames
  import Seqs

  /** Once the name is valid, assembling can only fail for want of a visible sample. */
  lemma AssembleFailure(playerName: string, groups: seq<Group>)
    requires PlayerNames.StoreKey(playerName).Ok? && Assemble(playerName, groups).Err?
    ensures Assemble(playerName, groups).error.NoVisibleSample?
  {
    var paths := Seqs.Map(GroupPath, groups);
    if DynamicTraces(groups, paths).Err? {
      var i := DynamicFirstFailure(groups, paths);
    }
  }

  /** A name of fewer than two words is refused before anything is fetched, and only such a name. */
  lemma InvalidNameIffNoKey(playerName: string, store: seq<Pitch>)
    ensures SceneOf(playerName, store) == Err(InvalidName) <==> PlayerNames.StoreKey(playerName).Err?
  {
    var key := PlayerNames.StoreKey(playerName);
    if key.Ok? && |Fetch(key.value, store)| > 0 && SceneOf(playerName, store).Err? {
      AssembleFailure(playerName, PlayerGroups(key.value, store));
    }
  }

  /** A valid name that matches no row is reported as an empty data set naming the player. */
  lemma EmptyDatasetIffNoRows(playerName: string, store: seq<Pitch>)
    ensures SceneOf(playerName, store) == Err(EmptyDataset(playerName)) <==>
      PlayerNames.StoreKey(playerName).Ok? && |Fetch(PlayerNames.StoreKey(playerName).value, store)| == 0
  {
    var key := PlayerNames.StoreKey(playerName);
    if key.Ok? && |Fetch(key.value, store)| > 0 && SceneOf(playerName, store).Err? {
      AssembleFailure(playerName, PlayerGroups(key.value, store));
    }
  }

  /**
   * A request with a valid name and some rows succeeds exactly when every
   * pitch type's mean trajectory reaches the front of the zone at least
   * once; otherwise it fails naming the first pitch type, in group order,
   * that does not.
   */
  lemma SucceedsIffAllVisible(playerName: string, store: seq<Pitch>)
    requires PlayerNames.StoreKey(playerName).Ok?
    requires |Fetch(PlayerNames.StoreKey(playerName).value, store)| > 0
    ensures var groups := PlayerGroups(PlayerNames.StoreKey(playerName).value, store);
      SceneOf(playerName, store).Ok? <==> forall i :: 0 <= i < |groups| ==> |GroupPath(groups[i]).ys| > 0
    ensures var groups := PlayerGroups(PlayerNames.StoreKey(playerName).value, store);
      SceneOf(playerName, store).Err? ==>
        exists i :: 0 <= i < |groups| && |GroupPath(groups[i]).ys| == 0 &&
          (forall j :: 0 <= j < i ==> |GroupPath(groups[j]).ys| > 0) &&
          SceneOf(playerName, store) == Err(NoVisibleSample(groups[i].pitchType))
  {
    var groups := PlayerGroups(PlayerNames.StoreKey(playerName).value, store);
    assert SceneOf(playerName, store) == Assemble(playerName, groups);
    AssembleVisible(playerName, groups);
  }

  /** The same over the groups: drawing them succeeds exactly when each has a visible sample. */
  lemma AssembleVisible(playerName: string, groups: seq<Group>)
    requires PlayerNames.StoreKey(playerName).Ok?
    ensures Assemble(playerName, groups).Ok? <==> forall i :: 0 <= i < |groups| ==> |GroupPath(groups[i]).ys| > 0
    ensures Assemble(playerName, groups).Err? ==>
      exists i :: 0 <= i < |groups| && |GroupPath(groups[i]).ys| == 0 &&
        (forall j :: 0 <= j < i ==> |GroupPath(groups[j]).ys| > 0) &&
        Assemble(playerName, groups) == Err(NoVisibleSample(groups[i].pitchType))
  {
    var paths := Seqs.Map(GroupPath, groups);
    assert forall i :: 0 <= i < |groups| ==> paths[i] == GroupPath(groups[i]);
    if DynamicTraces(groups, paths).Err? {
      var i := FirstInvisible(groups);
    }
  }

  /** When the groups' traces fail, the error names the first group whose clipped path is empty. */
  lemma FirstInvisible(groups: seq<Group>) returns (i: nat)
    requires DynamicTraces(groups, Seqs.Map(GroupPath, groups)).Err?
    ensures i < |groups| && |GroupPath(groups[i]).ys| == 0
    ensures forall j :: 0 <= j < i ==> |GroupPath(groups[j]).ys| > 0
    ensures DynamicTraces(groups, Seqs.Map(GroupPath, groups)).error == NoVisibleSample(groups[i].pitchType)
  {
    var paths := Seqs.Map(GroupPath, groups);
    i := DynamicFirstFailure(groups, paths);
    assert paths[i] == GroupPath(groups[i]);
    assert forall j :: 0 <= j < i ==> paths[j] == GroupPath(groups[j]);
  }

  /** Distinct in the sense of strictly increasing: no label occurs twice. */
  lemma IncreasingDistinct(s: seq<string>)
    requires StrictlyIncreasing(s)
    ensures forall i, j :: 0 <= i < j < |s| ==> s[i] != s[j]
  {
    forall i, j | 0 <= i < j < |s| ensures s[i] != s[j] {
      if s[i] == s[j] {
        BelowIrreflexive(s[i]);
      }
    }
  }

  /** The labels of the groups are the sorted distinct pitch types of the fetched rows. */
  lemma GroupLabels(key: string, store: seq<Pitch>)
    ensures var groups := PlayerGroups(key, store);
      && StrictlyIncreasing(Labels(groups))
      && FirstOccurrences(Labels(groups)) == Labels(groups)
      && forall t :: t in Labels(groups) <==>
           exists j :: 0 <= j < |Fetch(key, store)| && Fetch(key, store)[j].pitchType == t
  {
    var rows := Fetch(key, store);
    var labels := Labels(PlayerGroups(key, store));
    AdjustedTypes(rows);
    GroupKeys(rows);
    assert labels == PitchTypes(rows);
    IncreasingDistinct(labels);
    FirstOccurrencesOfDistinct(labels);
  }

  /** Adjusting for handedness leaves the pitch types, so the group keys, as they were. */
  lemma AdjustedTypes(rows: seq<Pitch>)
    ensures PitchTypes(Seqs.Map(Normalize, rows)) == PitchTypes(rows)
  {
    forall j | 0 <= j < |rows| ensures TypeOf(Normalize(rows[j])) == TypeOf(rows[j]) {
      NormalizeKeepsLabels(rows[j]);
    }
    assert Seqs.Map(TypeOf, Seqs.Map(Normalize, rows)) == Seqs.Map(TypeOf, rows);
  }

  /**
   * A successful request is the assembly of the player's groups: a summary of
   * the definition of `SceneOf`, for readers of the lemmas that follow.
   */
  lemma SceneIsAssembly(playerName: string, store: seq<Pitch>)
    requires SceneOf(playerName, store).Ok?
    ensures PlayerNames.StoreKey(playerName).Ok?
    ensures SceneOf(playerName, store) == Assemble(playerName, PlayerGroups(PlayerNames.StoreKey(playerName).value, store))
  {
  }

  /**
   * A successful scene holds the nine static traces, then a curve and a
   * marker pair per legend entry. The legend lists every pitch type the
   * player threw, each once, in ascending order.
   */
  lemma SceneLayout(playerName: string, store: seq<Pitch>)
    requires SceneOf(playerName, store).Ok?
    ensures var sc := SceneOf(playerName, store).value;
      var key := PlayerNames.StoreKey(playerName).value;
      && |sc.traces| == 9 + 2 * |sc.legend|
      && sc.traces[..9] == StaticTraces()
      && sc.legend == Labels(PlayerGroups(key, store))
      && StrictlyIncreasing(sc.legend)
      && (forall t :: t in sc.legend <==>
            exists j :: 0 <= j < |Fetch(key, store)| && Fetch(key, store)[j].pitchType == t)
      && sc.title == PlayerNames.Title(playerName).value
  {
    var key := PlayerNames.StoreKey(playerName).value;
    var groups := PlayerGroups(key, store);
    assert SceneOf(playerName, store) == Assemble(playerName, groups);
    AssembleLayout(playerName, groups);
    GroupLabels(key, store);
  }

  /** The same over the groups: the static traces, two per group, the collected labels and the title. */
  lemma AssembleLayout(playerName: string, groups: seq<Group>)
    requires Assemble(playerName, groups).Ok?
    ensures var sc := Assemble(playerName, groups).value;
      && |sc.traces| == 9 + 2 * |groups|
      && sc.traces[..9] == StaticTraces()
      && sc.legend == FirstOccurrences(Labels(groups))
      && sc.title == PlayerNames.Title(playerName).value
  {
    StaticCount();
  }

  /**
   * In an assembled scene, trace 9 + 2i is the curve of group `i` along its
   * clipped mean trajectory, which is not empty, and trace 10 + 2i is the
   * group's marker pair.
   */
  lemma GroupTracesAt(playerName: string, groups: seq<Group>, sc: Scene, i: nat)
    requires Assemble(playerName, groups) == Ok(sc) && i < |groups|
    ensures TracesOfGroup(sc.traces, groups[i], GroupPath(groups[i]), i)
  {
    var paths := Seqs.Map(GroupPath, groups);
    StaticCount();
    LaidOut(groups, paths, StaticTraces(), i);
    assert paths[i] == GroupPath(groups[i]);
  }

  /** Traces 9 + 2i and 10 + 2i are the curve and the marker pair of group `g` drawn along `c`. */
  predicate TracesOfGroup(traces: seq<Trace>, g: Group, c: Path, i: nat) {
    && 10 + 2 * i < |traces|
    && c.Aligned() && |c.xs| > 0
    && traces[9 + 2 * i] == Curve(g, c, i)
    && traces[10 + 2 * i] == Endpoints(g, c, i)
  }

  lemma LaidOut(groups: seq<Group>, paths: seq<Path>, statics: seq<Trace>, i: nat)
    requires |groups| == |paths| && AllAligned(paths) && DynamicTraces(groups, paths).Ok?
    requires |statics| == 9 && i < |groups|
    ensures TracesOfGroup(statics + DynamicTraces(groups, paths).value, groups[i], paths[i], i)
  {
    DynamicTracesAt(groups, paths, i);
  }

  /**
   * The curve of a group is labelled with its pitch type and drawn in the
   * group's palette colour; the marker pair shares that colour and joins
   * the release point of the group's mean pitch to the curve's last point.
   * A summary of the definitions of `Curve` and `Endpoints`.
   */
  lemma CurveAndMarkers(g: Group, c: Path, i: nat)
    requires c.Aligned() && |c.xs| > 0
    ensures var curve, markers := Curve(g, c, i), Endpoints(g, c, i);
      && curve.Lines? && curve.legend == Some(g.pitchType) && curve.color == Palette(i)
      && curve.xs == c.xs && curve.ys == c.ys && curve.zs == c.zs
      && markers.Markers? && markers.color == Palette(i)
      && markers.xs == [g.mean.releaseX, curve.xs[|curve.xs| - 1]]
      && markers.ys == [g.mean.releaseY, curve.ys[|curve.ys| - 1]]
      && markers.zs == [g.mean.releaseZ, curve.zs[|curve.zs| - 1]]
  {
  }

  /** Reordering the stored rows changes nothing: the request reads them as a multiset. */
  lemma StoreOrderIrrelevant(playerName: string, store: seq<Pitch>, other: seq<Pitch>)
    requires multiset(store) == multiset(other)
    ensures SceneOf(playerName, store) == SceneOf(playerName, other)
  {
    var key := PlayerNames.StoreKey(playerName);
    if key.Ok? {
      var keep := (p: Pitch) => p.playerName == key.value;
      Seqs.FilterPermutation(keep, store, other);
      var rows, rows' := Fetch(key.value, store), Fetch(key.value, other);
      assert |rows| == |multiset(rows)| == |multiset(rows')| == |rows'|;
      Seqs.MapPermutation(Normalize, rows, rows');
      GroupByPermutation(Seqs.Map(Normalize, rows), Seqs.Map(Normalize, rows'));
    }
  }
}

=== FILE: seqs.dfy ===
/**
 * Generic operations on sequences used by the request: an element-wise map,
 * an order-preserving filter, and the facts that both only depend on the
 * multiset of their input when only the multiset of the output matters.
 */
module Seqs {

  function Map<A, B>(f: A -> B, s: seq<A>): (r: seq<B>)
    ensures |r| == |s|
    ensures forall i :: 0 <= i < |s| ==> r[i] == f(s[i])
  {
    seq(|s|, i requires 0 <= i < |s| => f(s[i]))
  }

  /** The head of a non-empty sequence is in it; stated apart so that impossible branches stay cheap. */
  lemma HeadIn<A>(s: seq<A>)
    requires |s| > 0
    ensures s[0] in s
  {
  }

  /**
   * Appending two elements one at a time is appending the pair; stated apart
   * so that the figure loop's invariant step stays cheap.
   */
  lemma AppendPair<A>(a: seq<A>, b: seq<A>, x: A, y: A)
    ensures a + b + [x] + [y] == a + (b + [x, y])
  {
  }

  lemma MapConcat<A, B>(f: A -> B, a: seq<A>, b: seq<A>)
    ensures Map(f, a + b) == Map(f, a) + Map(f, b)
  {
  }

  /** The elements of `s` satisfying `p`, in their original order. */
  function Filter<A>(p: A -> bool, s: seq<A>): (r: seq<A>)
    ensures |r| <= |s|
    ensures forall i :: 0 <= i < |r| ==> r[i] in s && p(r[i])
    ensures forall i :: 0 <= i < |s| && p(s[i]) ==> s[i] in r
  {
    if s == [] then [] else (if p(s[0]) then [s[0]] else []) + Filter(p, s[1..])
  }

  lemma {:induction false} FilterConcat<A>(p: A -> bool, a: seq<A>, b: seq<A>)
    ensures Filter(p, a + b) == Filter(p, a) + Filter(p, b)
    decreases |a|
  {
    if a != [] {
      assert (a + b)[1..] == a[1..] + b;
      FilterConcat(p, a[1..], b);
    } else {
      assert a + b == b;
    }
  }

  /** Adding the same multiset to both sides can be undone. */
  lemma Cancel<A>(x: multiset<A>, y: multiset<A>, m: multiset<A>)
    requires x + m == y + m
    ensures x == y
  {
    forall e ensures x[e] == y[e] {
      assert (x + m)[e] == x[e] + m[e] && (y + m)[e] == y[e] + m[e];
    }
  }

  /**
   * The first element of `a` occurs in any permutation `b` of it, and
   * removing it from both leaves permutations of each other.
   */
  lemma PermutationSplit<A>(a: seq<A>, b: seq<A>) returns (i: nat)
    requires |a| > 0 && multiset(a) == multiset(b)
    ensures i < |b| && b[i] == a[0]
    ensures b == b[..i] + [a[0]] + b[i + 1..]
    ensures multiset(a[1..]) == multiset(b[..i] + b[i + 1..])
  {
    assert a[0] in multiset(b);
    i :| 0 <= i < |b| && b[i] == a[0];
    var rest := b[..i] + b[i + 1..];
    assert a == [a[0]] + a[1..];
    assert b == b[..i] + [a[0]] + b[i + 1..];
    assert multiset(a) == multiset(a[1..]) + multiset{a[0]};
    assert multiset(b) == multiset(rest) + multiset{a[0]};
    Cancel(multiset(a[1..]), multiset(rest), multiset{a[0]});
  }

  lemma {:induction false} FilterPermutation<A>(p: A -> bool, a: seq<A>, b: seq<A>)
    requires multiset(a) == multiset(b)
    ensures multiset(Filter(p, a)) == multiset(Filter(p, b))
    decreases |a|
  {
    if a == [] {
      assert |multiset(b)| == 0;
    } else {
      var i := PermutationSplit(a, b);
      var rest := b[..i] + b[i + 1..];
      FilterPermutation(p, a[1..], rest);
      assert a == [a[0]] + a[1..];
      FilterConcat(p, [a[0]], a[1..]);
      FilterConcat(p, b[..i], b[i + 1..]);
      FilterConcat(p, b[..i], [a[0]]);
      FilterConcat(p, b[..i] + [a[0]], b[i + 1..]);
    }
  }

  lemma {:induction false} MapPermutation<A, B>(f: A -> B, a: seq<A>, b: seq<A>)
    requires multiset(a) == multiset(b)
    ensures multiset(Map(f, a)) == multiset(Map(f, b))
    decreases |a|
  {
    if a == [] {
      assert |multiset(b)| == 0;
    } else {
      var i := PermutationSplit(a, b);
      var rest := b[..i] + b[i + 1..];
      MapPermutation(f, a[1..], rest);
      assert a == [a[0]] + a[1..];
      MapConcat(f, [a[0]], a[1..]);
      MapConcat(f, b[..i], b[i + 1..]);
      MapConcat(f, b[..i], [a[0]]);
      MapConcat(f, b[..i] + [a[0]], b[i + 1..]);
    }
  }
}

=== FILE: trajectory.dfy ===
/**
 * The flight path of one pitch type: the mean release point moved under
 * constant acceleration, sampled at evenly spaced times over the first 0.6
 * seconds, then cut down to the samples that have not yet passed the front
 * plane of the strike zone (y >= 1.714 ft).
 */
module Trajectory {
  import opened Pitches

  /** Seconds of flight sampled. */
  const FlightTime: real := 0.6
  /** Number of samples. */
  const StepCount: nat := 1000
  /** The y coordinate of the strike zone's front plane, in feet. */
  const ZoneFront: real := 1.714

  /** `np.linspace(lo, hi, n)`: n evenly spaced values from lo to hi, both included. */
  function Linspace(lo: real, hi: real, n: nat): (r: seq<real>)
    ensures |r| == n
    ensures n > 0 ==> r[0] == lo
    ensures n > 1 ==> r[n - 1] == hi
    ensures n > 1 ==> forall i, j :: 0 <= i < n && 0 <= j < n ==> r[j] - r[i] == ((j - i) as real) * ((hi - lo) / ((n - 1) as real))
  {
    if n <= 1 then seq(n, i => lo)
    else
      var step := (hi - lo) / ((n - 1) as real);
      assert ((n - 1) as real) * step == hi - lo;
      seq(n, i requires 0 <= i < n => lo + (i as real) * step)
  }

  /** The sample times: 1000 instants from 0 to 0.6 seconds, 0.6/999 seconds apart. */
  function SampleTimes(): (ts: seq<real>)
    ensures |ts| == StepCount
    ensures ts[0] == 0.0 && ts[StepCount - 1] == FlightTime
    ensures forall i, j :: 0 <= i < StepCount && 0 <= j < StepCount ==> ts[j] - ts[i] == ((j - i) as real) * (FlightTime / 999.0)
  {
    Linspace(0.0, FlightTime, StepCount)
  }

  /** Position on one axis after `t` seconds, from position `p`, velocity `v` and constant acceleration `a`. */
  function Position(p: real, v: real, a: real, t: real): real {
    p + v * t + 0.5 * a * t * t
  }

  /** One axis of a path: the position at each of the given times. */
  function Along(p: real, v: real, a: real, ts: seq<real>): (r: seq<real>)
    ensures |r| == |ts|
  {
    seq(|ts|, i requires 0 <= i < |ts| => Position(p, v, a, ts[i]))
  }

  /** A path as three parallel coordinate arrays. */
  datatype Path = Path(xs: seq<real>, ys: seq<real>, zs: seq<real>) {
    predicate Aligned() {
      |xs| == |ys| == |zs|
    }
  }

  /** The sampled, unclipped path of a mean pitch. */
  function Sample(k: Kinematics): (path: Path)
    ensures path.Aligned() && |path.ys| == StepCount
    ensures path.xs[0] == k.releaseX && path.ys[0] == k.releaseY && path.zs[0] == k.releaseZ
  {
    var ts := SampleTimes();
    Path(Along(k.releaseX, k.vx0, k.ax, ts), Along(k.releaseY, k.vy0, k.ay, ts), Along(k.releaseZ, k.vz0, k.az, ts))
  }

  /** Sample `i` is the closed-form position at time i * 0.6 / 999 on every axis. */
  lemma SampleAt(k: Kinematics, i: nat)
    requires i < StepCount
    ensures var t := (i as real) * (FlightTime / 999.0);
      && Sample(k).xs[i] == k.releaseX + k.vx0 * t + 0.5 * k.ax * t * t
      && Sample(k).ys[i] == k.releaseY + k.vy0 * t + 0.5 * k.ay * t * t
      && Sample(k).zs[i] == k.releaseZ + k.vz0 * t + 0.5 * k.az * t * t
  {
  }

  /** For each sample, whether its y is at or beyond the front plane of the zone (at least 1.714). */
  function Mask(ys: seq<real>): (m: seq<bool>)
    ensures |m| == |ys|
  {
    seq(|ys|, i requires 0 <= i < |ys| => ys[i] >= ZoneFront)
  }

  /** The positions at which `mask` is true, ascending. */
  function KeptIndices(mask: seq<bool>): (r: seq<nat>)
    ensures |r| <= |mask|
    ensures forall j :: 0 <= j < |r| ==> r[j] < |mask| && mask[r[j]]
    ensures forall i :: 0 <= i < |mask| && mask[i] ==> i in r
    ensures forall j, j' :: 0 <= j < j' < |r| ==> r[j] < r[j']
    ensures forall j :: 0 <= j < |r| ==> j <= r[j]
  {
    if mask == [] then []
    else
      var n := |mask| - 1;
      var prefix := KeptIndices(mask[..n]);
      assert forall i :: 0 <= i < n ==> mask[..n][i] == mask[i];
      prefix + (if mask[n] then [n] else [])
  }

  /** Boolean indexing `s[mask]`: the elements of `s` where the mask is true, in order. */
  function Select(s: seq<real>, mask: seq<bool>): (r: seq<real>)
    requires |s| == |mask|
    ensures |r| == |KeptIndices(mask)|
    ensures forall j :: 0 <= j < |r| ==> r[j] == s[KeptIndices(mask)[j]]
  {
    if mask == [] then []
    else
      var n := |mask| - 1;
      Select(s[..n], mask[..n]) + (if mask[n] then [s[n]] else [])
  }

  /** The path cut to its samples in front of the strike zone, one index set for all three axes. */
  function Clip(path: Path): (c: Path)
    requires path.Aligned()
    ensures c.Aligned()
  {
    var mask := Mask(path.ys);
    Path(Select(path.xs, mask), Select(path.ys, mask), Select(path.zs, mask))
  }

  /**
   * The clip keeps exactly the samples whose y is at least 1.714, in time
   * order, and the same samples on the x, y and z axes.
   */
  lemma ClipKeeps(path: Path)
    requires path.Aligned()
    ensures var kept := KeptIndices(Mask(path.ys)); var c := Clip(path);
      && |c.ys| == |kept| <= |path.ys|
      && (forall j, j' :: 0 <= j < j' < |kept| ==> kept[j] < kept[j'])
      && (forall i :: 0 <= i < |path.ys| ==> (i in kept <==> path.ys[i] >= ZoneFront))
      && (forall j :: 0 <= j < |kept| ==>
            c.xs[j] == path.xs[kept[j]] && c.ys[j] == path.ys[kept[j]] && c.zs[j] == path.zs[kept[j]])
  {
    var kept := KeptIndices(Mask(path.ys));
    forall i | 0 <= i < |path.ys| && i in kept ensures path.ys[i] >= ZoneFront {
      var j :| 0 <= j < |kept| && kept[j] == i;
    }
  }

  /** Every kept sample is in front of the strike zone. */
  lemma ClipInFront(path: Path)
    requires path.Aligned()
    ensures forall j :: 0 <= j < |Clip(path).ys| ==> Clip(path).ys[j] >= ZoneFront
  {
  }

  /** A mask that is true everywhere keeps every position. */
  lemma {:induction false} KeptAll(mask: seq<bool>)
    requires forall i :: 0 <= i < |mask| ==> mask[i]
    ensures |KeptIndices(mask)| == |mask|
    ensures forall j :: 0 <= j < |mask| ==> KeptIndices(mask)[j] == j
  {
    if mask != [] {
      KeptAll(mask[..|mask| - 1]);
    }
  }

  /** A path entirely in front of the zone survives the clip unchanged. */
  lemma ClipAllInFront(path: Path)
    requires path.Aligned()
    requires forall i :: 0 <= i < |path.ys| ==> path.ys[i] >= ZoneFront
    ensures Clip(path) == path
  {
    KeptAll(Mask(path.ys));
  }

  /** Something survives the clip exactly when some sample is in front of the zone. */
  lemma ClipEmptyIff(path: Path)
    requires path.Aligned()
    ensures |Clip(path).ys| > 0 <==> exists i :: 0 <= i < |path.ys| && path.ys[i] >= ZoneFront
  {
    var mask := Mask(path.ys);
    var kept := KeptIndices(mask);
    assert |Clip(path).ys| == |kept|;
    forall i | 0 <= i < |path.ys| && path.ys[i] >= ZoneFront
      ensures i in kept
    {
      assert mask[i];
    }
    if |kept| > 0 {
      assert mask[kept[0]];
    }
  }

  /**
   * When the release point itself is in front of the zone, the clipped path
   * is not empty and starts exactly at the release point.
   */
  lemma ReleaseStartsClip(k: Kinematics)
    requires k.releaseY >= ZoneFront
    ensures var c := Clip(Sample(k));
      |c.ys| > 0 && c.xs[0] == k.releaseX && c.ys[0] == k.releaseY && c.zs[0] == k.releaseZ
  {
    var path := Sample(k);
    var kept := KeptIndices(Mask(path.ys));
    assert Mask(path.ys)[0];
    assert 0 in kept;
    var j :| 0 <= j < |kept| && kept[j] == 0;
    assert j <= kept[j];
  }
}

=== FILE: wrappers.dfy ===
/** Failure-compatible result type for the exceptions that abort a request. */
module Wrappers {

  datatype Option<+T> = None | Some(value: T)

  /** Either a value or the error that aborted the computation. */
  datatype Result<+T, +E> = Ok(value: T) | Err(error: E) {

    predicate IsFailure() {
      Err?
    }

    function PropagateFailure<U>(): Result<U, E>
      requires Err?
    {
      Err(error)
    }

    function Extract(): T
      requires Ok?
    {
      value
    }
  }
}
